=== FILE: README.md ===
# Retrieval-augmented Q&A app: citation assembly, chunk records and document registry

This project models the repository's own logic in a document question-answering
app. Library code and hosted services do the heavy work: a text splitter, an embedding model, a
Pinecone vector index, a Cohere reranker and a Groq-hosted language model. The
model covers the three pieces of logic around them:

- **Answer generation** (`generate_answer`, module `Generator`). The passages the
  retriever returns are numbered from 1 in rank order. They become a context block
  of `[n] text\n\n` entries and a parallel list of `{id, source, title, content}`
  sources. The filled-in prompt goes to the language model. When nothing is
  retrieved, the answer is a fixed apology with no sources and the model is not
  called. The retriever and the language model are function parameters. The reply
  also records the prompt that was sent, so "the model was not called" can be stated.
- **Ingestion** (`ingest_text`, module `Ingest`). The splitter's chunks become
  `{id, values, metadata}` records. Record `i` has position `i`, section
  `"Chunk i+1"`, the chunk text, and the caller's source name and title. All
  records go out in one upsert to the caller's namespace, which defaults to
  `"default"`. The splitter, the embedder and the chunk-id source (`uuid4`) are
  parameters. An embedder that raises is modelled as a `Failure`: the first
  failing chunk aborts the ingestion before anything is upserted.
- **Session registry** (`app.py`, module `App`). `available_docs` maps a file name
  to its namespace and `selected_doc` is the selection. The UI actions are events:
  choose, upload, delete-selected, clear-all and ask. The outcome of every
  external call that can change the session (text extraction, ingestion, delete,
  delete-all) is a field of the event. The question's answer does not change the
  session, so its outcome is not modelled. Each transition returns
  the next session and the external call it makes. The namespace of a file is
  `name.replace(" ", "_").replace(".", "_").lower()`.

Shared pieces: `Wrappers` (Option, Result), `Text` (decimal rendering and its
parser, ASCII lowercase, character replacement, substring test) and `IndexTypes`
(metadata values and the default namespace).

Modelling choices:
- Python truthiness is kept. An empty `selected_doc` or an empty question counts
  as absent.
- The selector widget only offers registered names. A chosen name that is not
  registered therefore changes nothing.
- A selection missing from the registry would make the lookups in app.py:50 and
  app.py:128 raise `KeyError` before any index or model call. In both places the
  session then stays as it was and no call is made. The invariant proved below
  shows that such a state never occurs.
- Clear-all keeps the registry on every error, including a "not found" one. The
  code does this, although delete-selected treats "not found" as success.

## Model

| member | source | states |
|---|---|---|
| Generator.GenerateAnswer | generator.py:36-69 | With no passages retrieved, the reply is the fixed apology with an empty source list and the model is not called. Otherwise the model is called once, on the template filled with the numbered context and the question. The answer is the model's text unchanged, so its citations are not checked against the sources. The source list cites the passages one for one, in order. The namespace defaults to "default". |
| Generator.NumberPassages | generator.py:47-58 | The loop's context equals the reference block of all entries in retrieval order. Source k has id k+1, passage k's text, and its `source`/`title` metadata or "Unknown"/"Untitled" when a key is missing. The entries tile the context, and the text between the offsets of passage k is exactly `[id_k] content_k\n\n`. |
| Generator.EntryLocated | generator.py:50-52 | In the context block, the entry numbered k+1 with passage k's text lies between the end of the first k entries and the end of the first k+1 entries. |
| Generator.ConcatAppend | generator.py:48-52 | Building the context by repeated `+=` distributes over splitting the entry list. |
| Generator.RenderPrompt | generator.py:18-34 | The rendered prompt holds the context verbatim at the `{context}` placeholder and the question verbatim at the `{question}` placeholder. |
| Ingest.IngestText | ingest.py:18-62 | The result is a success exactly when every chunk embeds. On failure, the message is that of the first chunk that failed and nothing is upserted. On success there is one upsert to the given namespace (default "default") with one record per chunk, in splitter order. Record i carries id draw i and chunk i's embedding. Its metadata has exactly the keys text, source, title, section and position: the chunk verbatim, the caller's source name and title, "Chunk i+1" and i. Positions are non-negative and strictly increase. An empty chunk list gives an upsert of no records. |
| Ingest.SectionLabelParses | ingest.py:49 | The ordinal read back from "Chunk " followed by the rendered i+1 is i+1. |
| Ingest.SectionLabelInjective | ingest.py:49 | Different chunks never share a section label. |
| Text.ParseNatToString | generator.py:51-52 | A citation number rendered in decimal reads back as the same number. |
| Text.NatToStringInjective | generator.py:51-52 | Different citation numbers render differently. |
| Text.LowerFixedPoint | app.py:103 | `lower()` leaves a string unchanged exactly when it has no upper-case ASCII letter. |
| Text.ContainsAt | app.py:58 | The substring test holds exactly when the piece occurs at some offset. |
| Text.ContainsNeedsChar | app.py:58 | A piece containing a character the message lacks is not found in the message. |
| App.NamespaceFor | app.py:103 | The namespace has the file name's length and contains no space, no dot and no upper-case ASCII letter. Spaces and dots become `_` and every other character is lowercased in place. |
| App.NamespaceIdempotent | app.py:103 | Deriving the namespace of a namespace gives it back. |
| App.NamespaceNotInjective | app.py:103 | "a b.txt" and "a_b.txt" get the same namespace, so derived namespaces are not unique per file. |
| App.OnChoose | app.py:28-41 | With no documents the selection is cleared. Choosing a registered name selects it. The registry never changes and no external call is made. |
| App.OnUpload | app.py:90-116 | An already registered name causes no ingestion and no change. For a new name, a failed text extraction makes no call. Otherwise ingestion runs on the text with source and title set to the name, into the derived namespace. On success exactly `name -> namespace(name)` is added, other entries are kept, and the name is selected. On failure the session is unchanged. |
| App.OnDeleteSelected | app.py:46-64 | Without a selection, or with a selection that is not registered, nothing happens and no call is made. Otherwise delete-all is called on the selected document's registered namespace. On success or a "not found"/"404" error, only that entry leaves the registry and the selection is cleared. Any other error leaves the session unchanged. No document is ever added. |
| App.OnClearAll | app.py:67-80 | The index's delete-all is called without a namespace (`index.delete(delete_all=True)`). Success empties the registry and clears the selection. Every error, including a "not found" one, leaves the session unchanged. |
| App.OnAsk | app.py:122-131 | The session is unchanged. The model is asked exactly when a document is selected, the question is non-empty and the document is registered, and then the question goes to that document's registered namespace. |
| App.StepKeepsValid | app.py:13-131 | Every event keeps the invariant: the selection is unset or registered, and every document is registered under its derived namespace. |
| App.InitialValid | app.py:13-16 | A fresh session satisfies the invariant. |
| App.RunKeepsValid | app.py:13-131 | Any sequence of events from a valid session ends in a valid session. |
| App.AskUsesUploadNamespace | app.py:103-131 | In a valid session, a non-empty question about the selection targets the namespace its upload ingested into. |
| App.NotFoundInAnyCase | app.py:58 | Any message with "not found" at some offset, in any mix of ASCII letter cases, is classed as not-found. |
| App.NotFoundByStatus | app.py:58 | Any message containing "404" is classed as not-found. |
| App.WithoutMarkersIsNotNotFound | app.py:58 | A message with no `n`, no `N` and no `4` is never classed as not-found. |
| App.OtherErrorKeepsSession | app.py:57-64 | When delete-selected fails with such a message, the registry and the selection are unchanged, whatever the session was. |

## Left out

- The splitting algorithm (chunk size 4000, overlap 600, separator priority) is library code. The settings are passed to an opaque splitter, and no size or overlap bound is claimed.
- Embedding, the Pinecone upsert/delete/query calls, PDF and UTF-8 text extraction and the Groq model call are foreign library or network calls. They are function parameters or outcome fields of events.
- An exception raised by the retriever or the language model inside `generate_answer` would propagate to the caller. `GenerateAnswer` treats both as total functions.
- The outcome of the `generate_answer` call made by the ask event (app.py:131) is not modelled. That includes an exception it raises, which nothing in app.py:122-131 catches. The session is unchanged either way.
- Failure of the single upsert call inside `ingest_text` is not modelled in `IngestText`. For the app it is part of the upload event's ingestion outcome.
- Retrieval itself (MMR search with k=10 and fetch_k=20, Cohere reranking to 5, and the fallback without reranking when the import fails) only configures library objects and is not modelled. The retriever is a parameter.
- Chunk ids come from `uuid4`. They are an opaque id source indexed by chunk, and uniqueness is not claimed.
- The timing and cost estimate in app.py uses wall-clock time and floating point. It is not modelled.
- Streamlit rendering, messages and `st.rerun` are not modelled. Only their effect on the two session variables is. The selector's re-run on every script run is modelled as an explicit choose event.
- App.NamespaceFor: `lower()` is modelled on ASCII letters only. Python's Unicode lowercasing can change other characters and even the string length.
- What the index's delete-all call without a namespace (app.py:71) actually removes is not modelled. The call is recorded as `DeleteAll(None)`. Uploads are written to their own derived namespaces, not to the default one.
- The one-shot index creation and reset scripts (database.py, reset_index.py) are not part of this model.

=== FILE: app.dfy ===
/**
 * The interactive front end (app.py) as a state machine over its two
 * session variables: the registry of indexed documents (file name to
 * namespace) and the selected document. Each event is one user action; the
 * outcome of every external call it makes is part of the event.
 */
module App {
  import opened Wrappers
  import opened Text

  /** `name.replace(" ", "_").replace(".", "_").lower()`. */
  function NamespaceFor(name: string): (ns: string)
    ensures |ns| == |name|
    ensures forall i :: 0 <= i < |ns| ==> ns[i] != ' ' && ns[i] != '.' && !IsUpper(ns[i])
    ensures forall i :: 0 <= i < |name| && name[i] != ' ' && name[i] != '.' ==>
              ns[i] == LowerChar(name[i])
    ensures forall i :: 0 <= i < |name| && (name[i] == ' ' || name[i] == '.') ==> ns[i] == '_'
  {
    Lower(ReplaceChar(ReplaceChar(name, ' ', '_'), '.', '_'))
  }

  /** A derived namespace is its own namespace. */
  lemma NamespaceIdempotent(name: string)
    ensures NamespaceFor(NamespaceFor(name)) == NamespaceFor(name)
  {
  }

  /** Two different file names can share a namespace. */
  lemma NamespaceNotInjective()
    ensures "a b.txt" != "a_b.txt"
    ensures NamespaceFor("a b.txt") == NamespaceFor("a_b.txt")
  {
  }

  /** `st.session_state`: `available_docs` and `selected_doc`. */
  datatype Registry = Registry(docs: map<string, string>, selected: Option<string>)

  /** The state of a fresh session. */
  const Initial: Registry := Registry(map[], None)

  /** How an external call ended: normally, or by raising with a message. */
  datatype Outcome = Ok | Raised(message: string)

  /** The user actions of one script run. */
  datatype Event =
    | Choose(name: string)                                      // the document selector
    | Upload(name: string, text: Result<string>, ingest: Outcome) // text: extraction result
    | DeleteSelected(outcome: Outcome)
    | ClearAll(outcome: Outcome)
    | Ask(query: string)

  /** The external call an event makes. */
  datatype Call =
    | NoCall
    | IndexFile(text: string, sourceName: string, title: string, namespace: string)
    | DeleteAll(inNamespace: Option<string>) // `index.delete(delete_all=True[, namespace=ns])`
    | Generate(query: string, namespace: string)

  datatype Transition = Transition(next: Registry, call: Call)

  /** Python truthiness of `selected_doc`: set and non-empty. */
  predicate Truthy(selected: Option<string>) {
    selected.Some? && selected.value != ""
  }

  /** An index error that means the data was already gone. */
  predicate IsNotFoundError(message: string) {
    Contains(Lower(message), "not found") || Contains(message, "404")
  }

  /**
   * The registry invariant: the selection, when set, is a registered
   * document, and every document is registered under its derived namespace.
   */
  ghost predicate Valid(r: Registry) {
    && (r.selected.Some? ==> r.selected.value in r.docs)
    && forall name :: name in r.docs ==> r.docs[name] == NamespaceFor(name)
  }

  /**
   * The document selector: with no documents the selection is cleared;
   * otherwise the chosen registered document becomes the selection. The
   * widget only offers registered names, so any other name changes nothing.
   */
  function OnChoose(r: Registry, name: string): (t: Transition)
    ensures t.call == NoCall && t.next.docs == r.docs
    ensures |r.docs| == 0 ==> t.next.selected == None
    ensures name in r.docs ==> t.next.selected == Some(name)
    ensures 0 < |r.docs| && name !in r.docs ==> t.next == r
  {
    if |r.docs| == 0 then Transition(Registry(r.docs, None), NoCall)
    else if name in r.docs then Transition(Registry(r.docs, Some(name)), NoCall)
    else Transition(r, NoCall)
  }

  /**
   * A file in the uploader: an already registered name is left alone; a new
   * one is read, ingested into its derived namespace, registered under that
   * namespace and selected. Any failure leaves the session as it was.
   */
  function OnUpload(r: Registry, name: string, text: Result<string>, ingest: Outcome): (t: Transition)
    ensures name in r.docs ==> t == Transition(r, NoCall)
    ensures name !in r.docs && text.Failure? ==> t == Transition(r, NoCall)
    ensures name !in r.docs && text.Success? ==>
              t.call == IndexFile(text.value, name, name, NamespaceFor(name))
    ensures name !in r.docs && text.Success? && ingest.Ok? ==>
              && t.next.docs.Keys == r.docs.Keys + {name}
              && t.next.docs[name] == NamespaceFor(name)
              && (forall other :: other in r.docs ==> t.next.docs[other] == r.docs[other])
              && t.next.selected == Some(name)
    ensures ingest.Raised? ==> t.next == r
  {
    if name in r.docs || text.Failure? then Transition(r, NoCall)
    else
      var ns := NamespaceFor(name);
      var call := IndexFile(text.value, name, name, ns);
      if ingest.Ok? then Transition(Registry(r.docs[name := ns], Some(name)), call)
      else Transition(r, call)
  }

  /**
   * "Delete Selected Document": offered only while a document is selected.
   * It deletes that document's namespace; on success, or on an error that
   * says the data is already gone, only that document leaves the registry
   * and the selection is cleared; any other error changes nothing. A
   * selection missing from the registry makes the lookup raise before the
   * index is called, which also changes nothing.
   */
  function OnDeleteSelected(r: Registry, outcome: Outcome): (t: Transition)
    ensures !Truthy(r.selected) ==> t == Transition(r, NoCall)
    ensures Truthy(r.selected) && r.selected.value !in r.docs ==> t == Transition(r, NoCall)
    ensures Truthy(r.selected) && r.selected.value in r.docs ==>
              t.call == DeleteAll(Some(r.docs[r.selected.value]))
    ensures Truthy(r.selected) && r.selected.value in r.docs
            && (outcome.Ok? || IsNotFoundError(outcome.message)) ==>
              && t.next.docs.Keys == r.docs.Keys - {r.selected.value}
              && (forall other :: other in t.next.docs ==> t.next.docs[other] == r.docs[other])
              && t.next.selected == None
    ensures outcome.Raised? && !IsNotFoundError(outcome.message) ==> t.next == r
    ensures t.next.docs.Keys <= r.docs.Keys
  {
    if !Truthy(r.selected) || r.selected.value !in r.docs then Transition(r, NoCall)
    else
      var name := r.selected.value;
      var call := DeleteAll(Some(r.docs[name]));
      match outcome
      case Ok => Transition(Registry(r.docs - {name}, None), call)
      case Raised(message) =>
        if IsNotFoundError(message) then Transition(Registry(r.docs - {name}, None), call)
        else Transition(r, call)
  }

  /**
   * "Clear All Documents": calls the index's delete-all without naming a
   * namespace; on success the registry is emptied and the selection
   * cleared, and on any error, including a not-found one, the session is
   * unchanged.
   */
  function OnClearAll(r: Registry, outcome: Outcome): (t: Transition)
    ensures t.call == DeleteAll(None)
    ensures outcome.Ok? ==> |t.next.docs| == 0 && t.next.selected == None
    ensures outcome.Raised? ==> t.next == r
  {
    if outcome.Ok? then Transition(Registry(map[], None), DeleteAll(None))
    else Transition(r, DeleteAll(None))
  }

  /**
   * The question box: a non-empty question about the selected document is
   * answered from that document's registered namespace. The session does
   * not change.
   */
  function OnAsk(r: Registry, query: string): (t: Transition)
    ensures t.next == r
    ensures t.call != NoCall <==>
              Truthy(r.selected) && query != "" && r.selected.value in r.docs
    ensures t.call != NoCall ==> t.call == Generate(query, r.docs[r.selected.value])
  {
    if Truthy(r.selected) && query != "" && r.selected.value in r.docs
    then Transition(r, Generate(query, r.docs[r.selected.value]))
    else Transition(r, NoCall)
  }

  function Step(r: Registry, e: Event): Transition {
    match e
    case Choose(name) => OnChoose(r, name)
    case Upload(name, text, ingest) => OnUpload(r, name, text, ingest)
    case DeleteSelected(outcome) => OnDeleteSelected(r, outcome)
    case ClearAll(outcome) => OnClearAll(r, outcome)
    case Ask(query) => OnAsk(r, query)
  }

  /** The session after a sequence of events. */
  function Run(r: Registry, events: seq<Event>): Registry
    decreases |events|
  {
    if |events| == 0 then r else Run(Step(r, events[0]).next, events[1..])
  }

  /** Every event keeps the registry invariant. */
  lemma StepKeepsValid(r: Registry, e: Event)
    requires Valid(r)
    ensures Valid(Step(r, e).next)
  {
  }

  /** Every session, from the start through any events, satisfies the invariant. */
  lemma {:induction false} RunKeepsValid(r: Registry, events: seq<Event>)
    requires Valid(r)
    ensures Valid(Run(r, events))
    decreases |events|
  {
    if |events| > 0 {
      StepKeepsValid(r, events[0]);
      RunKeepsValid(Step(r, events[0]).next, events[1..]);
    }
  }

  lemma InitialValid()
    ensures Valid(Initial)
  {
  }

  /**
   * In a valid session a non-empty question about the selected document is
   * asked of exactly the namespace its upload ingested into.
   */
  lemma AskUsesUploadNamespace(r: Registry, query: string)
    requires Valid(r) && Truthy(r.selected) && query != ""
    ensures Step(r, Ask(query)).call == Generate(query, NamespaceFor(r.selected.value))
  {
  }

  /**
   * A message with "not found" in it, in any mix of letter cases, is
   * "already gone".
   */
  lemma NotFoundInAnyCase(m: string, k: nat)
    requires k + 9 <= |m| && Lower(m[k..k + 9]) == "not found"
    ensures IsNotFoundError(m)
  {
    assert Lower(m)[k..k + 9] == Lower(m[k..k + 9]);
    assert "not found" <= Lower(m)[k..];
    ContainsAt(Lower(m), "not found");
  }

  /** A message carrying the HTTP status 404 is "already gone". */
  lemma NotFoundByStatus(m: string)
    requires Contains(m, "404")
    ensures IsNotFoundError(m)
  {
  }

  /**
   * A message without the letter n in either case and without the digit 4
   * cannot say "not found" or "404", so it is a real failure.
   */
  lemma {:induction false} WithoutMarkersIsNotNotFound(m: string)
    requires 'n' !in m && 'N' !in m && '4' !in m
    ensures !IsNotFoundError(m)
  {
    assert forall i :: 0 <= i < |m| ==> Lower(m)[i] != 'n';
    ContainsNeedsChar(Lower(m), "not found", 'n');
    ContainsNeedsChar(m, "404", '4');
  }

  /**
   * When deleting the selected document fails with such a message, the
   * registry and the selection stay as they were.
   */
  lemma OtherErrorKeepsSession(r: Registry, m: string)
    requires 'n' !in m && 'N' !in m && '4' !in m
    ensures Step(r, DeleteSelected(Raised(m))).next == r
  {
    WithoutMarkersIsNotNotFound(m);
  }
}

=== FILE: generator.dfy ===
/**
 * Answer generation (generator.py): number the retrieved passages, build the
 * context block and the parallel source list, and hand the rendered prompt to
 * the language model. The retriever and the language model are parameters.
 */
module Generator {
  import opened Wrappers
  import opened Text
  import opened IndexTypes

  /** A retrieved passage: its text and the metadata stored with it. */
  datatype Doc = Doc(pageContent: string, metadata: Metadata)

  /** One entry of the source list returned next to the answer. */
  datatype Source = Source(id: nat, source: MetaValue, title: MetaValue, content: string)

  /**
   * What `generate_answer` returns, plus the prompt it sent to the language
   * model (`None` when the model was not called).
   */
  datatype Reply = Reply(answer: string, sources: seq<Source>, llmPrompt: Option<string>)

  const NoInformationAnswer: string :=
    "I'm sorry, I couldn't find any relevant information in the documents to answer your question."

  const UnknownSource: MetaValue := Str("Unknown")
  const UntitledSource: MetaValue := Str("Untitled")

  /** The instruction template, split around its two placeholders. */
  const PromptHead: string :=
    "\nYou are a helpful assistant that answers questions strictly based on the provided context.\n\n"
    + "INSTRUCTIONS:\n"
    + "1. Use the provided context to answer the user's question.\n"
    + "2. If the answer is not contained within the context, gracefully state that you do not have enough information to answer. Do not make up an answer.\n"
    + "3. Every claim you make must be followed by an inline citation in brackets, e.g., [1], [2].\n"
    + "4. Match these numbers to the order of the source documents provided below.\n\n"
    + "CONTEXT:\n"
  const PromptMiddle: string := "\n\nQUESTION: \n"
  const PromptTail: string := "\n\nHELPFUL ANSWER:\n"

  /** The template with `{context}` and `{question}` filled in. */
  function RenderPrompt(context: string, question: string): (p: string)
    ensures |p| == |PromptHead| + |context| + |PromptMiddle| + |question| + |PromptTail|
    ensures p[|PromptHead|..|PromptHead| + |context|] == context
    ensures p[|p| - |PromptTail| - |question|..|p| - |PromptTail|] == question
  {
    PromptHead + context + PromptMiddle + question + PromptTail
  }

  /** The `[n] ` marker that opens the passage cited as `n`. */
  function CitationMarker(n: nat): string {
    "[" + NatToString(n) + "] "
  }

  /** The context block entry for the passage cited as `n`. */
  function ContextEntry(n: nat, content: string): string {
    CitationMarker(n) + content + "\n\n"
  }

  /** The context block entries, passage `k` cited as `k + 1`. */
  function Entries(docs: seq<Doc>): (es: seq<string>)
    ensures |es| == |docs|
  {
    seq(|docs|, k requires 0 <= k < |docs| => ContextEntry(k + 1, docs[k].pageContent))
  }

  /** Left-to-right concatenation, as repeated `+=` builds it. */
  function Concat(parts: seq<string>): string {
    if |parts| == 0 then "" else Concat(parts[..|parts| - 1]) + parts[|parts| - 1]
  }

  /** The reference context block: every entry, in retrieval order. */
  function ContextOf(docs: seq<Doc>): string {
    Concat(Entries(docs))
  }

  /** Where the entry of passage `k` starts inside the context block. */
  function Offset(docs: seq<Doc>, k: nat): nat
    requires k <= |docs|
  {
    |ContextOf(docs[..k])|
  }

  /**
   * The source list matches the retrieved passages one for one and in order:
   * entry `k` is cited as `k + 1`, carries passage `k`'s text, and copies its
   * `source` and `title` metadata, falling back to "Unknown" and "Untitled".
   */
  ghost predicate CitesInOrder(docs: seq<Doc>, sources: seq<Source>) {
    && |sources| == |docs|
    && forall k :: 0 <= k < |docs| ==>
         && sources[k].id == k + 1
         && sources[k].content == docs[k].pageContent
         && ("source" in docs[k].metadata ==> sources[k].source == docs[k].metadata["source"])
         && ("source" !in docs[k].metadata ==> sources[k].source == UnknownSource)
         && ("title" in docs[k].metadata ==> sources[k].title == docs[k].metadata["title"])
         && ("title" !in docs[k].metadata ==> sources[k].title == UntitledSource)
  }

  /**
   * The context block holds, between the offsets of passage `k`, the marker
   * of source `k`'s number followed by source `k`'s text.
   */
  ghost predicate EntryCites(docs: seq<Doc>, context: string, sources: seq<Source>, k: nat)
    requires k < |docs| && k < |sources|
  {
    && Offset(docs, k) <= Offset(docs, k + 1) <= |context|
    && context[Offset(docs, k)..Offset(docs, k + 1)]
       == CitationMarker(sources[k].id) + sources[k].content + "\n\n"
  }

  /** The source-list entry of passage `k`. */
  function SourceFor(k: nat, doc: Doc): Source {
    Source(k + 1, Get(doc.metadata, "source", UnknownSource),
           Get(doc.metadata, "title", UntitledSource), doc.pageContent)
  }

  /** Concatenation distributes over appending lists of parts. */
  lemma {:induction false} ConcatAppend(a: seq<string>, b: seq<string>)
    ensures Concat(a + b) == Concat(a) + Concat(b)
    decreases |b|
  {
    if |b| == 0 {
      assert a + b == a;
    } else {
      var b' := b[..|b| - 1];
      assert (a + b)[..|a + b| - 1] == a + b';
      ConcatAppend(a, b');
    }
  }

  /** The entries of a prefix of the passages are a prefix of the entries. */
  lemma EntriesPrefix(docs: seq<Doc>, k: nat)
    requires k <= |docs|
    ensures Entries(docs[..k]) == Entries(docs)[..k]
  {
  }

  /** Extending the passages by one appends that passage's entry. */
  lemma ContextStep(docs: seq<Doc>, i: nat)
    requires i < |docs|
    ensures ContextOf(docs[..i + 1]) == ContextOf(docs[..i]) + ContextEntry(i + 1, docs[i].pageContent)
  {
    var es := Entries(docs[..i + 1]);
    assert es[..i] == Entries(docs[..i]);
  }

  /**
   * The entry citing passage `k` as `k + 1` sits in the context block between
   * `Offset(docs, k)` and `Offset(docs, k + 1)`, so the block's numbering is
   * the source list's numbering.
   */
  lemma {:induction false} EntryLocated(docs: seq<Doc>, k: nat)
    requires k < |docs|
    ensures Offset(docs, k) <= Offset(docs, k + 1) <= |ContextOf(docs)|
    ensures ContextOf(docs)[Offset(docs, k)..Offset(docs, k + 1)]
            == ContextEntry(k + 1, docs[k].pageContent)
  {
    var es := Entries(docs);
    EntriesPrefix(docs, k + 1);
    assert es == es[..k + 1] + es[k + 1..];
    ConcatAppend(es[..k + 1], es[k + 1..]);
    ContextStep(docs, k);
  }

  /**
   * The numbering loop of `generate_answer`: builds the context block with
   * `+=` and the source list with `append`, one passage at a time.
   */
  method NumberPassages(docs: seq<Doc>) returns (context: string, sources: seq<Source>)
    ensures context == ContextOf(docs)
    ensures CitesInOrder(docs, sources)
    ensures Offset(docs, 0) == 0 && Offset(docs, |docs|) == |context|
    ensures forall k :: 0 <= k < |docs| ==> EntryCites(docs, context, sources, k)
  {
    context := "";
    sources := [];
    for i := 0 to |docs|
      invariant context == ContextOf(docs[..i])
      invariant |sources| == i
      invariant forall k :: 0 <= k < i ==> sources[k] == SourceFor(k, docs[k])
    {
      ContextStep(docs, i);
      context := context + ContextEntry(i + 1, docs[i].pageContent);
      sources := sources + [SourceFor(i, docs[i])];
    }
    assert docs[..|docs|] == docs;
    forall k | 0 <= k < |docs|
      ensures EntryCites(docs, context, sources, k)
    {
      EntryLocated(docs, k);
    }
  }

  /**
   * `generate_answer(query, namespace)`: retrieve passages for the query in
   * the namespace ("default" when none is given); with none, answer with the
   * fixed apology and no sources without calling the model; otherwise return
   * the model's text unchanged together with the numbered source list.
   */
  method GenerateAnswer(query: string, namespace: Option<string>,
                        retrieve: (string, string) -> seq<Doc>,
                        llm: string -> string)
    returns (reply: Reply)
    ensures var docs := retrieve(query, namespace.GetOr(DefaultNamespace));
            && (docs == [] <==> reply.llmPrompt == None)
            && (docs == [] ==> reply.answer == NoInformationAnswer && reply.sources == [])
            && (docs != [] ==>
                  && reply.llmPrompt == Some(RenderPrompt(ContextOf(docs), query))
                  && reply.answer == llm(reply.llmPrompt.value)
                  && CitesInOrder(docs, reply.sources))
  {
    var docs := retrieve(query, namespace.GetOr(DefaultNamespace));
    if docs == [] {
      return Reply(NoInformationAnswer, [], None);
    }
    var context, sources := NumberPassages(docs);
    var prompt := RenderPrompt(context, query);
    reply := Reply(llm(prompt), sources, Some(prompt));
  }
}

=== FILE: index_types.dfy ===
/**
 * Vocabulary shared by the write path and the read path of the vector index:
 * metadata values as stored next to each vector, and the namespace used when
 * a caller names none.
 */
module IndexTypes {

  /** A metadata value: the application stores strings and integers only. */
  datatype MetaValue = Str(text: string) | Num(number: int)

  /** A metadata dictionary keyed by field name. */
  type Metadata = map<string, MetaValue>

  /** The namespace used when `ingest_text` or `generate_answer` get none. */
  const DefaultNamespace: string := "default"

  /** Python's `metadata.get(key, default)`. */
  function Get(m: Metadata, key: string, default: MetaValue): MetaValue {
    if key in m then m[key] else default
  }
}

=== FILE: ingest.dfy ===
/**
 * Ingestion (ingest.py): split a document into chunks, embed each chunk, and
 * send one record per chunk to the vector index in a single namespaced
 * upsert. The splitter, the embedder and the id source are parameters.
 */
module Ingest {
  import opened Wrappers
  import opened Text
  import opened IndexTypes

  /** The settings handed to the recursive character splitter. */
  datatype SplitterConfig = SplitterConfig(
    chunkSize: nat,
    chunkOverlap: nat,
    separators: seq<string>,
    addStartIndex: bool)

  /** Chunks of about 4000 characters overlapping by 600, paragraph breaks first. */
  const Splitter: SplitterConfig := SplitterConfig(4000, 600, ["\n\n", "\n", ".", " ", ""], true)

  type Vector = seq<real>

  /** One `{id, values, metadata}` entry of an upsert. */
  datatype Record = Record(id: string, values: Vector, metadata: Metadata)

  /** One upsert call: a batch of records written to one namespace. */
  datatype Upsert = Upsert(namespace: string, vectors: seq<Record>)

  /** The section label of chunk `i`: chunks are counted from one. */
  function SectionLabel(i: nat): string {
    "Chunk " + NatToString(i + 1)
  }

  /** Reads the chunk ordinal back from a section label. */
  function SectionNumber(section: string): Option<nat> {
    if 6 < |section| && section[..6] == "Chunk " && AllDigits(section[6..])
    then Some(ParseNat(section[6..]))
    else None
  }

  /** A section label names the ordinal it was built from. */
  lemma SectionLabelParses(i: nat)
    ensures SectionNumber(SectionLabel(i)) == Some(i + 1)
  {
    var section := SectionLabel(i);
    assert section[..6] == "Chunk ";
    assert section[6..] == NatToString(i + 1);
    ParseNatToString(i + 1);
  }

  /** Distinct chunks get distinct section labels. */
  lemma SectionLabelInjective(i: nat, j: nat)
    requires SectionLabel(i) == SectionLabel(j)
    ensures i == j
  {
    SectionLabelParses(i);
    SectionLabelParses(j);
  }

  /** The metadata stored with chunk `i`. */
  function ChunkMetadata(i: nat, chunk: string, sourceName: string, title: string): Metadata {
    map["text" := Str(chunk), "source" := Str(sourceName), "title" := Str(title),
        "section" := Str(SectionLabel(i)), "position" := Num(i)]
  }

  /**
   * `rec` is the record of chunk `i`: it carries the given id and embedding,
   * and exactly the five metadata fields, with the chunk text verbatim, the
   * caller's source name and title, label "Chunk i+1" and position `i`.
   */
  ghost predicate DescribesChunk(rec: Record, i: nat, chunk: string, sourceName: string,
                                 title: string, embedding: Vector, id: string)
  {
    && rec.id == id
    && rec.values == embedding
    && rec.metadata.Keys == {"text", "source", "title", "section", "position"}
    && rec.metadata["text"] == Str(chunk)
    && rec.metadata["source"] == Str(sourceName)
    && rec.metadata["title"] == Str(title)
    && rec.metadata["section"] == Str(SectionLabel(i))
    && rec.metadata["position"] == Num(i)
  }

  /**
   * `ingest_text(text, source_name, title, namespace)`: split the text with
   * the fixed splitter settings, embed each chunk in order, draw the chunk's
   * id, and upsert all records at once to the namespace ("default" when none
   * is given). An embedding failure aborts before anything is upserted.
   */
  method IngestText(text: string, sourceName: string, title: string, namespace: Option<string>,
                    split: (SplitterConfig, string) -> seq<string>,
                    embed: string -> Result<Vector>,
                    newId: nat -> string)
    returns (r: Result<Upsert>)
    ensures var chunks := split(Splitter, text);
            r.Success? <==> forall i :: 0 <= i < |chunks| ==> embed(chunks[i]).Success?
    ensures var chunks := split(Splitter, text);
            r.Failure? ==>
              exists i :: 0 <= i < |chunks| && embed(chunks[i]) == Failure(r.message)
                          && forall j :: 0 <= j < i ==> embed(chunks[j]).Success?
    ensures var chunks := split(Splitter, text);
            r.Success? ==>
              && r.value.namespace == namespace.GetOr(DefaultNamespace)
              && |r.value.vectors| == |chunks|
              && (forall i :: 0 <= i < |chunks| ==>
                    DescribesChunk(r.value.vectors[i], i, chunks[i], sourceName, title,
                                   embed(chunks[i]).value, newId(i)))
              && (forall i, j :: 0 <= i < j < |chunks| ==>
                    0 <= r.value.vectors[i].metadata["position"].number
                      < r.value.vectors[j].metadata["position"].number)
  {
    var chunks := split(Splitter, text);
    var vectors: seq<Record> := [];
    for i := 0 to |chunks|
      invariant |vectors| == i
      invariant forall k :: 0 <= k < i ==> embed(chunks[k]).Success?
      invariant forall k :: 0 <= k < i ==>
                  DescribesChunk(vectors[k], k, chunks[k], sourceName, title,
                                 embed(chunks[k]).value, newId(k))
    {
      var embedding := embed(chunks[i]);
      if embedding.Failure? {
        return Failure(embedding.message);
      }
      var rec := Record(newId(i), embedding.value, ChunkMetadata(i, chunks[i], sourceName, title));
      vectors := vectors + [rec];
    }
    return Success(Upsert(namespace.GetOr(DefaultNamespace), vectors));
  }
}

=== FILE: text.dfy ===
/**
 * The string operations the application relies on: decimal rendering of
 * integers (Python's f-string `{n}`), ASCII `str.lower()`, single-character
 * `str.replace` and the substring test `sub in s`.
 */
module Text {

  predicate IsDigit(c: char) {
    '0' <= c <= '9'
  }

  predicate AllDigits(s: string) {
    forall i :: 0 <= i < |s| ==> IsDigit(s[i])
  }

  function DigitChar(d: nat): (c: char)
    requires d < 10
    ensures IsDigit(c)
  {
    ('0' as int + d) as char
  }

  function DigitValue(c: char): (d: nat)
    requires IsDigit(c)
    ensures d < 10
    ensures DigitChar(d) == c
  {
    c as int - '0' as int
  }

  /** Decimal rendering of a natural number, most significant digit first. */
  function NatToString(n: nat): (s: string)
    ensures 1 <= |s|
    ensures AllDigits(s)
    ensures s[0] == '0' ==> n == 0
    ensures n < 10 <==> |s| == 1
  {
    if n < 10 then [DigitChar(n)]
    else NatToString(n / 10) + [DigitChar(n % 10)]
  }

  /** Reads a string of decimal digits back as a number. */
  function ParseNat(s: string): nat
    requires AllDigits(s)
  {
    if |s| == 0 then 0
    else 10 * ParseNat(s[..|s| - 1]) + DigitValue(s[|s| - 1])
  }

  /** Rendering then reading a number gives the number back. */
  lemma {:induction false} ParseNatToString(n: nat)
    ensures ParseNat(NatToString(n)) == n
  {
    var s := NatToString(n);
    if n < 10 {
      assert s[..0] == [];
    } else {
      var t := NatToString(n / 10);
      assert s[..|s| - 1] == t;
      ParseNatToString(n / 10);
    }
  }

  /** Distinct numbers never render to the same digits. */
  lemma NatToStringInjective(m: nat, n: nat)
    requires NatToString(m) == NatToString(n)
    ensures m == n
  {
    ParseNatToString(m);
    ParseNatToString(n);
  }

  predicate IsUpper(c: char) {
    'A' <= c <= 'Z'
  }

  /** `str.lower()` on one character, ASCII letters only. */
  function LowerChar(c: char): (r: char)
    ensures !IsUpper(r)
    ensures IsUpper(c) ==> r as int == c as int + 32
    ensures !IsUpper(c) ==> r == c
  {
    if IsUpper(c) then (c as int + 32) as char else c
  }

  predicate HasNoUpper(s: string) {
    forall i :: 0 <= i < |s| ==> !IsUpper(s[i])
  }

  /** `str.lower()` over ASCII. */
  function Lower(s: string): (r: string)
    ensures |r| == |s|
    ensures HasNoUpper(r)
    ensures forall i :: 0 <= i < |s| && !IsUpper(s[i]) ==> r[i] == s[i]
  {
    seq(|s|, i requires 0 <= i < |s| => LowerChar(s[i]))
  }

  /** A string is its own lowercase exactly when it has no upper-case letter. */
  lemma LowerFixedPoint(s: string)
    ensures Lower(s) == s <==> HasNoUpper(s)
  {
  }

  /** `s.replace(from, to)` for one-character `from` and `to`. */
  function ReplaceChar(s: string, from: char, to: char): (r: string)
    ensures |r| == |s|
    ensures from != to ==> forall i :: 0 <= i < |r| ==> r[i] != from
    ensures forall i :: 0 <= i < |s| && s[i] != from ==> r[i] == s[i]
    ensures forall i :: 0 <= i < |s| && s[i] == from ==> r[i] == to
  {
    seq(|s|, i requires 0 <= i < |s| => if s[i] == from then to else s[i])
  }

  /** Python's `sub in s`: `sub` occurs as a contiguous piece of `s`. */
  predicate Contains(s: string, sub: string)
    decreases |s|
  {
    sub <= s || (0 < |s| && Contains(s[1..], sub))
  }

  /** A piece with a character that `s` lacks does not occur in `s`. */
  lemma ContainsNeedsChar(s: string, sub: string, c: char)
    requires c in sub && c !in s
    ensures !Contains(s, sub)
  {
  }

  /** `Contains` finds exactly the occurrences at some offset. */
  lemma {:induction false} ContainsAt(s: string, sub: string)
    ensures Contains(s, sub) <==> exists k :: 0 <= k <= |s| - |sub| && sub <= s[k..]
    decreases |s|
  {
    if sub <= s {
      assert sub <= s[0..];
    } else if 0 < |s| {
      ContainsAt(s[1..], sub);
      if Contains(s[1..], sub) {
        var k :| 0 <= k <= |s[1..]| - |sub| && sub <= s[1..][k..];
        assert s[1..][k..] == s[k + 1..];
      }
      if exists k :: 0 <= k <= |s| - |sub| && sub <= s[k..] {
        var k :| 0 <= k <= |s| - |sub| && sub <= s[k..];
        assert k != 0;
        assert s[1..][k - 1..] == s[k..];
      }
    }
  }
}

=== FILE: wrappers.dfy ===
/** The option and outcome types the model uses. */
module Wrappers {

  /** Python's `None` or a present value. */
  datatype Option<+T> = None | Some(value: T) {

    /** The value, or `default` when absent. */
    function GetOr(default: T): T {
      match this
      case Some(v) => v
      case None => default
    }
  }

  /** The outcome of a call that may raise: a value or the exception's message. */
  datatype Result<+R> = Success(value: R) | Failure(message: string)
}
